=== FILE: README.md ===
# Team portfolio page: a Dafny model of `src/app.js`

The page shows a team's members. On load it reads `content.json`. If that
fails or the file lists no member, it falls back to three built-in sample
members. It then builds a navigation bar with Home plus one button per member,
and routes on the URL fragment. A member view has a header and tabs:
the overview, one tab per coursework phase, and the reflection. Each tab's HTML is built
from the member record, with fixed placeholder text for missing fields.

The model is split into modules that follow the script's sections:

- `Wrappers`: the `Option` type.
- `Numbers`: JavaScript's `String(n)` for integers, and `parseInt(s)` with no radix.
- `Text`: `split(' ')` and `join`, the first-character scan behind `getInitials`, ASCII upper-casing, and `slice(0, n)`.
- `Content`: the data model: `Key` (a number or string id), `Activity`, `Reflection` and `Member`. JavaScript truthiness is explicit: `""`, `0` and a missing value are falsy. An empty list stands for a missing one, because the code reads every list through a `length > 0` test.
- `Fixture`: `getSampleData`.
- `Store`: the key a member answers to (`id || index`), the `find` over those keys, the positional fallback `members[k]`, and `loadContent` over an abstract fetch outcome.
- `Render`: `getInitials`, `renderActivity`, `renderReflection`, `renderMemberHeader`, `renderOverview` and `renderMemberContent`.
- `Tabs`: `switchTab` over the `.tab` buttons and `.tab-panel` panels.
- `Router`: the navigation links and `updateNavigation`, `updateURL`, the fragment key `parseInt(hash) || hash`, and the state transitions `showHome`, `showMember`, `handleInitialRoute` and the start-up sequence.

Two lookup rules of the code are worth stating plainly:

- **Ambiguous keys.** When a key matches both an explicit id and a position, the first match in list order wins, whichever scheme produced it (`Store.EarlierPositionBeatsExplicitId`).
- **Positional fallback.** A member without an id is reached by its index only when no earlier member has that index as its explicit id (`Store.PositionalFallback`).

## Model

| member | source | states |
|---|---|---|
| Numbers.ParseIntOfText | src/app.js:371 | `parseInt` reads back what `String(n)` wrote: for every integer `n` the result is `n` |
| Numbers.TrimStart | src/app.js:371 | the text `parseInt` skips is a prefix made only of white space; the rest starts with a non-space, or is empty |
| Numbers.ParseInt | src/app.js:371 | `parseInt(s)` gives a number only when `s` holds a decimal digit |
| Numbers.ParseIntStart | src/app.js:371 | after the white space, a number needs a digit or a sign first; a decimal digit there (not opening a `0x` prefix) always gives a non-negative number, and a negative result needs a leading `-` |
| Numbers.IntToText | src/app.js:383 | `String(n)` is a minus sign exactly for negative `n`, followed by a numeral made only of digits that starts with `0` exactly when `n` is zero |
| Text.Split | src/app.js:396 | `split(' ')` yields at least one piece, no piece holds a space, and joining the pieces with single spaces gives back the input |
| Text.SplitJoin | src/app.js:396 | `split(' ')` undoes `join(' ')` on space-free words |
| Text.FirstCharsOfSplit | src/app.js:396-398 | taking the first character of every piece (empty pieces give nothing) yields exactly the characters that begin a word of the original string |
| Text.Take | src/app.js:400 | `slice(0, n)` is a prefix of length `min(n, length)` |
| Text.UpperString | src/app.js:399 | `toUpperCase` keeps the length and raises every character on its own |
| Render.GetInitials | src/app.js:393-401 | an empty name gives the default avatar; any other name gives an upper-cased prefix, at most 2 long, of the characters that begin its words |
| Render.BlankNameHasNoInitials | src/app.js:394-400 | a name of spaces only is not empty, so it gets no default avatar, and its initials are empty |
| Render.ThreeWordInitials | src/app.js:395-400 | `"a b c"` gives `"AB"`: only two initials are kept, and they are upper-cased |
| Render.SelectShape | src/app.js:330-362 | the chain of optional blocks keeps field order and holds exactly the blocks whose fields are present |
| Render.SelectHtml | src/app.js:330-364 | the markup of the selected blocks is the concatenation of the optional pieces, in field order |
| Render.ActivityBlocks | src/app.js:330-362 | a structured activity shows a block for a field exactly when the field is non-empty, with that field's content, in the order title, description, topics, tasks, score, notes |
| Render.RenderActivity | src/app.js:316-365 | a missing or empty activity gives the placeholder; a text gives one paragraph; a record gives its blocks' markup, or the placeholder when it has none; the result is never empty |
| Render.ScoreOnlyActivity | src/app.js:356-364 | a record holding only a score renders as exactly the score line |
| Render.ReflectionBlocks | src/app.js:283-311 | a reflection shows a block for a field exactly when the field is non-empty, in the order introduction, learnings, challenges, future, text |
| Render.RenderReflection | src/app.js:275-314 | a missing reflection gives the placeholder paragraph; a present one gives its blocks' markup, or the placeholder when every field is empty |
| Render.MissingReflectionHtml | src/app.js:279-313 | the stand-in reflection used for a missing one renders to exactly the placeholder paragraph |
| Render.RenderHeader | src/app.js:207-238 | avatar is `avatar` or the initials; background is `color` or the random gradient; role is `role` or "Team Member"; contact holds the mail link when there is an e-mail, and the GitHub link always preceded by " • " |
| Render.BlankAvatar | src/app.js:214 | the avatar is blank exactly when the member has no avatar and a non-empty name in which no word starts |
| Render.ContactLinks | src/app.js:222-236 | the contact line holds the mail link exactly when there is an e-mail, the GitHub link and its separator exactly when there is a GitHub address, and nothing else |
| Render.OverviewCards | src/app.js:240-258 | three cards, About, Key Contributions and Skills & Technologies; a card's body is the member's field exactly when that field is non-empty, and otherwise "No bio available.", "Various contributions to the project." and "HTML, CSS, JavaScript, Docker, Ansible" |
| Render.OverviewBodies | src/app.js:244-257 | the overview markup shows each card's body right after its own heading, wrapped in its paragraph, with the three cards in order and not overlapping |
| Render.RenderMemberContent | src/app.js:195-205 | the page is the member's header, overview, six coursework panels each from its own activity, and reflection panel; none of the coursework or reflection panels is empty |
| Store.KeyAt | src/app.js:372 | a member answers to its explicit id when that is truthy, and to its position otherwise |
| Content.KeyText | src/app.js:82 | `String(k)`: a string key is its own text, a number's is `String(n)`, and a truthy key never has empty text |
| Store.Find | src/app.js:167 | the first member whose key equals `k`; none exactly when no member has that key |
| Store.Position | src/app.js:168 | `members[k]`: a number indexes directly; a string does so only when it is the canonical numeral of an index |
| Store.Resolve | src/app.js:167-168 | a key match anywhere wins and is the first in list order; only when nothing matches is the positional reading used |
| Store.PositionalFallback | src/app.js:167-168 | a member without an id is reached by its index unless an earlier member answers to that index |
| Store.ExplicitIdLookup | src/app.js:167-168 | a member with an id is reached by it unless an earlier member answers to the same key |
| Store.EarlierPositionBeatsExplicitId | src/app.js:167-168 | in `[{}, {}, {id: 1}]` the key 1 reaches the second member by position, not the third by id |
| Store.LoadContent | src/app.js:31-48 | the member list is never empty: it is the fetched list when the response was ok and listed members, and the sample data otherwise |
| Store.SampleIdsResolve | src/app.js:435 | each sample id 1, 2, 3 reaches the member at position id − 1, by `find` and by the full lookup |
| Store.SampleMiss | src/app.js:166-173 | a number that is neither a sample id nor a position is a miss |
| Fixture.SampleData | src/app.js:432-653 | the sample data holds three members with ids 1, 2, 3 in that order |
| Tabs.FirstIndex | src/app.js:146 | `getElementById` among the panels: the first panel carrying the id, or none exactly when no panel does |
| Tabs.SwitchTab | src/app.js:125-151 | the tab is remembered even when unknown; the active buttons are exactly those whose `data-tab` is the tab; the only visible panel is the first with id `panel-<tab>`; buttons and panels are kept |
| Tabs.SwitchTabIdempotent | src/app.js:125-151 | the state after `switchTab(t)` depends only on `t` and the buttons and panels, so a second `switchTab(t)` changes nothing |
| Tabs.VisiblePanels | src/app.js:139-150 | after `switchTab(t)` at most one panel is visible; none is when no panel is `panel-t`, and one with that id is otherwise |
| Router.NavLinks | src/app.js:58-73 | the navigation is Home first, then one link per member in list order, captioned with its name and tagged with the text of `id \|\| index` |
| Router.Highlight | src/app.js:76-86 | for the home view the Home link is lit, and so is any member named "Home" or whose key reads "null"; for a key, Home is dark and exactly the member links whose key has the same text are lit |
| Router.InitialHighlight | src/app.js:58-73 | after the navigation is built only the Home link is lit |
| Router.HashValue | src/app.js:383 | the `location.hash` setter drops exactly one leading `#`: the value with `#` put back in front is the text given, and text without a leading `#` is kept as is |
| Router.UpdateUrl | src/app.js:381-387 | a falsy key clears the fragment; any other key writes its text through the `location.hash` setter (`Router.HashValue`) |
| Router.UpdateUrlClears | src/app.js:381-387 | the fragment is empty exactly for a falsy key and for the key "#" |
| Router.RouteKey | src/app.js:371 | the fragment's leading number when `parseInt` gives a non-zero number, the fragment text itself when it gives `NaN` or zero |
| Router.RouteKeyInverse | src/app.js:371 | reading a truthy key back from the fragment it wrote gives the key again exactly when it is a non-zero number, or a string that does not start with `#` and that `parseInt` reads as `NaN` or zero |
| Router.RouteTarget | src/app.js:368-379 | an empty fragment leads nowhere; otherwise the target is the first member answering to the routed key, and there is none only when no member does |
| Router.FragmentKey | src/app.js:188 | the fragment value is the member's id when truthy, and the requested key otherwise |
| Router.ShowHome | src/app.js:154-164 | intro shown, member section hidden, no current member, Home lit, fragment cleared, tabs and page untouched |
| Router.ShowHomeForgets | src/app.js:154-164 | the home view depends only on the members, tab strip and page, going home twice is going home once, and the cleared fragment routes home |
| Router.ShowMember | src/app.js:166-192 | a miss changes nothing; a hit makes the resolved member current and rendered, lights links by the requested key, selects the overview tab and writes `member.id \|\| k` to the fragment |
| Router.HandleInitialRoute | src/app.js:368-379 | a fragment whose routed key some member answers to shows the first such member: current, rendered, section shown, links lit by the routed key, overview tab selected; any other fragment gives exactly the home view |
| Router.Startup | src/app.js:17-48 | after start-up the member list is non-empty, and is the fetched list when that is usable and a list holding the sample ids 1, 2, 3 otherwise; a member is shown exactly when the fragment routes to one, and it is the first member that fragment's key reaches; otherwise the home view is up: intro shown, member section hidden, navigation highlighted as for no member |
| Router.RouteRoundTrip | src/app.js:175-188 | reloading on the fragment `showMember(k)` wrote shows the same member, when the written key is a non-zero number or a string without a number or a leading `#`, and keys are distinct in case the member was reached by position |
| Router.RoundTripByKey | src/app.js:166-188 | a member that `find` reaches by `k` is shown again on reload from the fragment it wrote, whatever other members answer to `k` |
| Router.HashIdGoesHome | src/app.js:383 | a member with id "#a" writes the fragment "a", so when no member answers to "a" a reload goes home |
| Router.ZeroRoutesAsText | src/app.js:371 | the fragment "0" routes as the string "0", since `parseInt("0")` is falsy |
| Router.HashZeroGoesHome | src/app.js:369-378 | `#0` leads home unless a member has the id "0", even though `showMember(0)` reaches the first member |
| Router.ZeroReachesFirstMember | src/app.js:167-168 | `showMember(0)` always reaches the first member of a non-empty list |
| Router.FirstMemberClearsFragment | src/app.js:188 | showing the first member by index 0 when it has no id clears the fragment, so reloading goes home |
| Router.HighlightFollowsKeyText | src/app.js:82 | the highlight follows the text of the requested key, not the member shown: with ids 1 and 2, `showMember("1")` shows the second member but lights the first one's link |
| Router.SampleRoutes | src/app.js:381-386 | every sample member can be bookmarked: the fragment its id writes leads back to it |

## Left out

- Fetching `content.json`, JSON parsing and the start-up `try`/`catch` are not modelled. They become an abstract `FetchOutcome`. Nothing in the model can throw, so the `showError` panel of the hard-failure path never appears.
- Event wiring is not modelled: `DOMContentLoaded`, the click handlers, the back button and the `hashchange` listener. `handleInitialRoute` re-entering after `updateURL` sets the hash is event-loop plumbing.
- `getRandomGradient` depends on `Math.random`. Its result is the `gradient` parameter of `RenderHeader`, `RenderMemberContent`, `ShowMember`, `HandleInitialRoute` and `Startup`.
- Effects with no statable logic are left out: `window.scrollTo`, the mobile-menu toggle, and the `showError` markup.
- Every DOM element is assumed to exist, so the element-presence checks are not modelled.
- The fragment is the raw text after `#`. Browser percent-encoding is not modelled; the `location.hash` setter's removal of one leading `#` is (`Router.UpdateUrl`).
- `toUpperCase` is restricted to ASCII letters.
- Text is inserted without HTML escaping, as the code does.
- Ids are integers or strings. Fractional numbers, other JSON values and `String(n)`'s exponent notation for |n| ≥ 10^21 are not modelled.
- Integers are unbounded. JavaScript numbers are doubles, so `JSON.parse` and `parseInt` round integers beyond 2^53; that rounding is not modelled. In the page the fragment `#9007199254740993` reaches a member with id 9007199254740992, while the model routes it home.
- `members[k]` models only the array-index property names `"0"`, `"1"`, …. Other property names of an array, such as `"length"`, are not modelled.
- The prototype `web-portfolio/src/app.js` is not part of this model. It has a different data shape and no logic beyond `'N/A'` defaults.
- Fixture.JohnDoe: its contract states only the member's id. The rest of the record is written out in the body.
- Fixture.JaneSmith: its contract states only the member's id. The rest of the record is written out in the body.
- Fixture.MikeJohnson: its contract states only the member's id. The rest of the record is written out in the body.
- Store.LoadContent: the sample data is characterised only by its three ids.
- Numbers.ParseInt: its own contract states only that a number needs a digit. When a number is found and its sign are `Numbers.ParseIntStart`; its exact value on the text of an integer is `Numbers.ParseIntOfText`.
- Render.OverviewHtml: the template's whitespace is copied into the markup, but no contract states it. The cards' bodies and their places in the markup are stated by `Render.OverviewCards` and `Render.OverviewBodies`.
- Router.RouteRoundTrip: for a member reached through the positional fallback `members[k]`, the round trip is stated for distinct member keys only. With duplicate keys the reload may show an earlier member that answers to the same key. A member reached by `find` round-trips regardless (`Router.RoundTripByKey`).
- Render.GetInitials: strings are sequences of Unicode code points, not of UTF-16 code units. `word[0]` and `slice(0, 2)` in JavaScript count code units, so a word that starts with a character outside the Basic Multilingual Plane (such as "😀 Bob") gives half a surrogate pair there and the whole character here.
- Tabs.FirstIndex: `getElementById` searches the whole document, while the model searches only the `.tab-panel` panels. An element outside the tab strip with id `panel-<tab>` is not modelled.
- Router.Startup: the sample data is characterised only by its three ids, as in `Store.LoadContent`.

=== FILE: content.dfy ===
/** The data model of the content file: members, their activities and their
    reflection. JavaScript truthiness is explicit: an empty string stands for
    a missing (or falsy) text field and an empty sequence for a missing list. */
module Content {
  import opened Wrappers
  import Numbers

  /** A member id or a navigation target: a JavaScript number or string.
      `===` between two keys is equality of `Key` values. */
  datatype Key = Num(n: int) | Str(s: string)

  /** JavaScript truthiness of a key: `0` and `''` are falsy. */
  predicate Truthy(k: Key) {
    match k
    case Num(n) => n != 0
    case Str(s) => s != ""
  }

  /** `String(k)`. */
  function KeyText(k: Key): (t: string)
    ensures Truthy(k) ==> t != ""
    ensures k.Num? ==> t == Numbers.IntToText(k.n)
    ensures k.Str? ==> t == k.s
  {
    match k
    case Num(n) => Numbers.IntToText(n)
    case Str(s) => s
  }

  /** One piece of coursework: missing, a plain text, or a record whose
      fields are each optional. */
  datatype Activity =
    | Absent
    | Plain(text: string)
    | Structured(title: string, description: string, topics: seq<string>,
                 tasks: seq<string>, score: string, notes: string)

  datatype Reflection = Reflection(
    introduction: string,
    learnings: seq<string>,
    challenges: seq<string>,
    future: string,
    text: string)

  datatype Member = Member(
    id: Option<Key>,
    name: string,
    role: string,
    avatar: string,
    color: string,
    email: string,
    github: string,
    bio: string,
    contributions: string,
    skills: string,
    prelimHOA: Activity,
    prelimExam: Activity,
    midtermHOA: Activity,
    midtermExam: Activity,
    finalsHOA: Activity,
    finalExam: Activity,
    reflection: Option<Reflection>)

  /** `member.id` when it is truthy. */
  predicate HasExplicitId(m: Member) {
    m.id.Some? && Truthy(m.id.value)
  }
}

=== FILE: fixture.dfy ===
/** The fallback dataset `getSampleData` returns when the content file cannot
    be used: three fully populated members with ids 1, 2 and 3. */
module Fixture {
  import opened Wrappers
  import opened Content

  method JohnDoe() returns (m: Member)
    ensures m.id == Some(Num(1))
  {
    m := Member(
      Some(Num(1)), "John Doe", "Team Lead", "JD", "",
      "john.doe@example.com", "https://github.com/johndoe",
      "Team lead responsible for project coordination and Docker implementation.",
      "Led Docker containerization, coordinated team efforts, and managed deployment pipeline.",
      "Docker, Ansible, Project Management, Linux Administration",
      Structured(
        "Introduction to Containerization",
        "Learned the basics of Docker and containerization concepts.",
        ["Docker basics", "Container vs VM", "Image creation", "Container lifecycle"],
        ["Install Docker on local machine", "Run first container", "Create simple Dockerfile",
         "Build and test image"],
        "", ""),
      Structured(
        "", "Practical exam covering Docker fundamentals and basic containerization.", [], [],
        "95/100", "Excellent understanding of container concepts"),
      Structured(
        "Advanced Docker & Networking",
        "Explored Docker networking, volumes, and multi-container applications.",
        ["Docker networks", "Volume management", "Docker Compose", "Container linking"],
        ["Set up custom network", "Configure persistent storage", "Create multi-container app",
         "Implement container communication"],
        "", ""),
      Structured(
        "", "Comprehensive exam on Docker networking and container orchestration.", [], [],
        "92/100", ""),
      Structured(
        "Ansible Automation & Deployment",
        "Implemented Ansible playbooks for automated Docker deployment across multiple VMs.",
        ["Ansible fundamentals", "Playbook creation", "Multi-VM deployment", "CI/CD integration"],
        ["Write image builder playbook", "Create container runner playbook", "Test on CentOS VM",
         "Deploy to Ubuntu VMs", "Implement idempotency"],
        "", ""),
      Structured(
        "", "Final project: Complete automated deployment pipeline using Docker and Ansible.", [], [],
        "98/100", "Outstanding implementation of automation"),
      Some(Reflection(
        "This project has been an incredible learning experience in modern DevOps practices.",
        ["Gained deep understanding of containerization and its benefits",
         "Learned to write efficient Dockerfiles and manage images",
         "Mastered Ansible for infrastructure automation",
         "Understood the importance of idempotency in automation",
         "Developed skills in cross-platform deployment (CentOS & Ubuntu)"],
        ["Initial difficulty understanding Docker networking concepts",
         "Troubleshooting Ansible playbook compatibility across different Linux distributions",
         "Managing team coordination and version control"],
        "I plan to explore Kubernetes for container orchestration and dive deeper into CI/CD pipelines using Jenkins and GitLab CI.",
        "")));
  }

  method JaneSmith() returns (m: Member)
    ensures m.id == Some(Num(2))
  {
    m := Member(
      Some(Num(2)), "Jane Smith", "Frontend Developer", "JS", "",
      "jane.smith@example.com", "",
      "Frontend specialist focused on creating responsive and accessible web interfaces.",
      "Developed the portfolio website with modern HTML/CSS/JS. Ensured responsive design and accessibility.",
      "HTML5, CSS3, JavaScript, Responsive Design, UI/UX",
      Structured(
        "Web Development Fundamentals",
        "Built foundational knowledge in HTML, CSS, and JavaScript.",
        ["HTML5 semantics", "CSS Flexbox and Grid", "JavaScript basics", "Responsive design"],
        ["Create semantic HTML structure", "Style with modern CSS", "Add JavaScript interactivity",
         "Implement mobile-first design"],
        "", ""),
      Structured("", "Created a responsive landing page from scratch.", [], [], "94/100", ""),
      Structured(
        "Advanced CSS & JavaScript",
        "Explored CSS animations, transitions, and advanced JavaScript patterns.",
        ["CSS animations", "JavaScript ES6+", "DOM manipulation", "Event handling"],
        ["Create animated UI components", "Implement tab navigation", "Build dynamic content loading",
         "Add smooth transitions"],
        "", ""),
      Structured("", "Developed an interactive web application with dynamic content.", [], [], "96/100", ""),
      Structured(
        "Full Portfolio Development",
        "Created complete portfolio website with all required sections.",
        ["Project structure", "Content management", "State management", "Accessibility"],
        ["Design portfolio layout", "Implement navigation system", "Create member pages",
         "Add content sections for all activities"],
        "", ""),
      Structured("", "Final portfolio website with all deliverables and responsive design.", [], [], "99/100", ""),
      Some(Reflection(
        "Building this portfolio taught me so much about modern web development practices.",
        ["Improved CSS skills with modern layout techniques",
         "Learned to structure JavaScript applications effectively",
         "Understood the importance of semantic HTML",
         "Gained experience in responsive and mobile-first design",
         "Developed better code organization habits"],
        ["Ensuring cross-browser compatibility",
         "Creating a flexible content management system",
         "Balancing aesthetics with performance"],
        "I want to learn React and Vue.js to build more complex single-page applications, and explore CSS preprocessors like SASS.",
        "")));
  }

  method MikeJohnson() returns (m: Member)
    ensures m.id == Some(Num(3))
  {
    m := Member(
      Some(Num(3)), "Mike Johnson", "DevOps Engineer", "MJ", "",
      "mike.j@example.com", "",
      "DevOps specialist handling infrastructure automation and deployment processes.",
      "Configured VMs, wrote Ansible playbooks, and managed deployment across multiple environments.",
      "Ansible, Linux, Shell Scripting, CI/CD, Infrastructure as Code",
      Structured(
        "Linux System Administration",
        "Learned Linux fundamentals and system administration tasks.",
        ["Linux commands", "File permissions", "Package management", "Service management"],
        ["Set up CentOS VM", "Configure Ubuntu VMs", "Install required packages", "Configure SSH access"],
        "", ""),
      Structured("", "Practical Linux administration tasks.", [], [], "91/100", ""),
      Structured(
        "Ansible Basics",
        "Introduction to Ansible and infrastructure automation.",
        ["Ansible concepts", "Inventory management", "Ad-hoc commands", "Basic playbooks"],
        ["Install Ansible", "Configure inventory file", "Write first playbook", "Test on multiple hosts"],
        "", ""),
      Structured("", "Created Ansible playbook for system configuration.", [], [], "93/100", ""),
      Structured(
        "Complete Deployment Automation",
        "Implemented full deployment pipeline with Ansible and Docker.",
        ["Advanced playbooks", "Role creation", "Variable management", "Error handling"],
        ["Create image builder playbook", "Develop container runner playbook",
         "Implement idempotency checks", "Test across CentOS and Ubuntu", "Document deployment process"],
        "", ""),
      Structured("", "Final deployment automation with complete documentation.", [], [], "97/100", ""),
      Some(Reflection(
        "This project gave me hands-on experience with real-world DevOps practices.",
        ["Mastered Ansible for infrastructure automation",
         "Learned to write idempotent and reusable playbooks",
         "Understood cross-platform deployment challenges",
         "Gained experience with Docker in production",
         "Improved documentation and communication skills"],
        ["Handling differences between CentOS and Ubuntu package managers",
         "Debugging Ansible playbook errors",
         "Ensuring idempotency across all tasks"],
        "I plan to learn Terraform for infrastructure provisioning and explore Kubernetes for container orchestration at scale.",
        "")));
  }

  /** `getSampleData()`: three members whose explicit ids 1, 2, 3 follow
      their positions, each with all six activities and a reflection. */
  method SampleData() returns (ms: seq<Member>)
    ensures |ms| == 3
    ensures forall i :: 0 <= i < 3 ==> ms[i].id == Some(Num(i + 1))
  {
    var john := JohnDoe();
    var jane := JaneSmith();
    var mike := MikeJohnson();
    ms := [john, jane, mike];
  }
}

=== FILE: numbers.dfy ===
/** The two number/string conversions the router relies on: JavaScript's
    `String(n)` for an integer `n`, and `parseInt(s)` called without a radix.
    Numbers are unbounded integers here; floating-point precision is not modelled. */
module Numbers {
  import opened Wrappers

  predicate IsDecimalDigit(c: char) {
    '0' <= c <= '9'
  }

  /** The value `parseInt` gives a character as a digit (radix up to 36);
      36 for a character that is no digit in any radix. */
  function DigitValue(c: char): nat {
    if '0' <= c <= '9' then c as int - '0' as int
    else if 'a' <= c <= 'z' then c as int - 'a' as int + 10
    else if 'A' <= c <= 'Z' then c as int - 'A' as int + 10
    else 36
  }

  predicate IsDigitIn(c: char, radix: nat) {
    DigitValue(c) < radix
  }

  function DigitChar(d: nat): (c: char)
    requires d < 10
    ensures IsDecimalDigit(c) && DigitValue(c) == d
  {
    ('0' as int + d) as char
  }

  /** The decimal numeral of `n`, without leading zeros. */
  function NatToText(n: nat): (r: string)
    ensures |r| >= 1
    ensures forall i :: 0 <= i < |r| ==> IsDecimalDigit(r[i])
    ensures r[0] == '0' <==> n == 0
    ensures n == 0 ==> r == "0"
    decreases n
  {
    if n < 10 then [DigitChar(n)] else NatToText(n / 10) + [DigitChar(n % 10)]
  }

  /** `String(n)` for an integer `n`. */
  function IntToText(n: int): (r: string)
    ensures r != ""
    ensures n < 0 <==> r[0] == '-'
    ensures n < 0 ==> |r| >= 2
    ensures forall i :: (if n < 0 then 1 else 0) <= i < |r| ==> IsDecimalDigit(r[i])
    ensures r[if n < 0 then 1 else 0] == '0' <==> n == 0
  {
    if n < 0 then "-" + NatToText(-n) else NatToText(n)
  }

  /** Left-to-right (Horner) value of a digit string in `radix`. */
  function DigitsValue(ds: string, radix: nat): nat
    decreases |ds|
  {
    if |ds| == 0 then 0 else DigitsValue(ds[..|ds| - 1], radix) * radix + DigitValue(ds[|ds| - 1])
  }

  /** Length of the longest prefix of `s` made only of digits of `radix`. */
  function DigitRun(s: string, radix: nat): (n: nat)
    ensures n <= |s|
    ensures forall i :: 0 <= i < n ==> IsDigitIn(s[i], radix)
    ensures n < |s| ==> !IsDigitIn(s[n], radix)
  {
    if |s| == 0 || !IsDigitIn(s[0], radix) then 0 else 1 + DigitRun(s[1..], radix)
  }

  /** The characters `parseInt` skips before a numeral (StrWhiteSpaceChar:
      the white space and line terminator code points of ECMAScript). */
  predicate IsStrWhiteSpace(c: char) {
    || c == '\t' || c == '\n' || c == '\U{000B}' || c == '\U{000C}' || c == '\r'
    || c == ' ' || c == '\U{00A0}' || c == '\U{1680}' || ('\U{2000}' <= c <= '\U{200A}')
    || c == '\U{2028}' || c == '\U{2029}' || c == '\U{202F}' || c == '\U{205F}'
    || c == '\U{3000}' || c == '\U{FEFF}'
  }

  /** `s` without its leading white space. */
  function TrimStart(s: string): (r: string)
    ensures |r| <= |s| && r == s[|s| - |r|..]
    ensures r == "" || !IsStrWhiteSpace(r[0])
    ensures s != "" && !IsStrWhiteSpace(s[0]) ==> r == s
    ensures forall i :: 0 <= i < |s| - |r| ==> IsStrWhiteSpace(s[i])
  {
    if |s| > 0 && IsStrWhiteSpace(s[0]) then
      var r := TrimStart(s[1..]);
      assert forall i :: 0 <= i < |s| - 1 - |r| ==> s[1..][i] == s[i + 1];
      r
    else s
  }

  /** `0x` or `0X` at the start: the numeral is hexadecimal. */
  predicate HexPrefix(u: string) {
    |u| >= 2 && u[0] == '0' && (u[1] == 'x' || u[1] == 'X')
  }

  /** The unsigned part of `parseInt`: a `0x`/`0X` prefix switches to radix
      16, and the longest run of digits that follows is the value; `None`
      when that run is empty. */
  function ParseUnsigned(u: string): (r: Option<nat>)
    ensures r.Some? ==> |u| > 0 && IsDecimalDigit(u[0])
    ensures |u| > 0 && IsDecimalDigit(u[0]) && !HexPrefix(u) ==> r.Some?
  {
    var hex := HexPrefix(u);
    var radix := if hex then 16 else 10;
    var body := if hex then u[2..] else u;
    var n := DigitRun(body, radix);
    if n == 0 then None
    else
      assert !hex ==> DigitValue(body[0]) < 10;
      Some(DigitsValue(body[..n], radix))
  }

  /** A numeral with an optional sign in front: `-` negates, `+` does not. */
  function ParseSigned(t: string): (r: Option<int>)
    ensures r.Some? ==> exists i :: 0 <= i < |t| && IsDecimalDigit(t[i])
    ensures r.Some? ==> |t| > 0 && (IsDecimalDigit(t[0]) || t[0] == '-' || t[0] == '+')
    ensures |t| > 0 && IsDecimalDigit(t[0]) && !HexPrefix(t) ==> r.Some? && r.value >= 0
    ensures r.Some? && r.value < 0 ==> t[0] == '-'
  {
    var negative := |t| > 0 && t[0] == '-';
    var u := if |t| > 0 && (t[0] == '-' || t[0] == '+') then t[1..] else t;
    match ParseUnsigned(u)
    case None => None
    case Some(v) =>
      assert t[|t| - |u|] == u[0];
      var w: int := v;
      Some(if negative then -w else w)
  }

  /** `parseInt(s)` with no radix: leading white space is skipped, one sign is
      read, and the rest is read by `ParseUnsigned`. `None` is `NaN` (no
      digit at all); `-0` and `0` are both `Some(0)`. */
  function ParseInt(s: string): (r: Option<int>)
    ensures r.Some? ==> exists i :: 0 <= i < |s| && IsDecimalDigit(s[i])
  {
    var t := TrimStart(s);
    var r := ParseSigned(t);
    if r.Some? then
      var i :| 0 <= i < |t| && IsDecimalDigit(t[i]);
      assert t[i] == s[|s| - |t| + i];
      r
    else r
  }

  /** What `parseInt` makes of the first character after the white space:
      a number needs a digit or a sign there, a decimal digit (not opening a
      `0x` prefix) always gives a non-negative number, and a negative number
      needs a minus sign. */
  lemma ParseIntStart(s: string)
    ensures var t := TrimStart(s);
            ParseInt(s).Some? ==> |t| > 0 && (IsDecimalDigit(t[0]) || t[0] == '-' || t[0] == '+')
    ensures var t := TrimStart(s);
            |t| > 0 && IsDecimalDigit(t[0]) && !HexPrefix(t) ==> ParseInt(s).Some? && ParseInt(s).value >= 0
    ensures ParseInt(s).Some? && ParseInt(s).value < 0 ==> TrimStart(s)[0] == '-'
  {
  }

  lemma {:induction false} DigitsValueOfNatToText(n: nat)
    ensures DigitsValue(NatToText(n), 10) == n
    decreases n
  {
    if n >= 10 {
      var p := NatToText(n / 10);
      var d := DigitChar(n % 10);
      DigitsValueOfNatToText(n / 10);
      assert NatToText(n) == p + [d];
      assert (p + [d])[..|p|] == p;
    }
  }

  lemma NatToTextIsUnsignedNumeral(m: nat)
    ensures ParseUnsigned(NatToText(m)) == Some(m)
  {
    var digits := NatToText(m);
    assert !(|digits| >= 2 && digits[0] == '0');
    assert forall i :: 0 <= i < |digits| ==> IsDigitIn(digits[i], 10);
    assert DigitRun(digits, 10) == |digits|;
    assert digits[..|digits|] == digits;
    DigitsValueOfNatToText(m);
  }

  /** A numeral read with and without a minus sign in front. */
  lemma ParseSignedNumeral(u: string, v: nat)
    requires |u| > 0 && IsDecimalDigit(u[0]) && ParseUnsigned(u) == Some(v)
    ensures ParseSigned(u) == Some(v)
    ensures ParseSigned("-" + u) == Some(-(v as int))
  {
    assert ("-" + u)[1..] == u;
  }

  /** Reading back what `String(n)` wrote gives `n` again, for every integer. */
  lemma ParseIntOfText(n: int)
    ensures ParseInt(IntToText(n)) == Some(n)
  {
    var s := IntToText(n);
    assert !IsStrWhiteSpace(s[0]);
    assert TrimStart(s) == s;
    var m: nat := if n < 0 then -n else n;
    var digits := NatToText(m);
    NatToTextIsUnsignedNumeral(m);
    ParseSignedNumeral(digits, m);
  }
}

=== FILE: render.dfy ===
/** The content renderer: the strings and header fields a member's page is
    built from. Text is inserted as is, without HTML escaping, exactly as the
    page does. */
module Render {
  import opened Wrappers
  import opened Text
  import opened Content

  const DefaultAvatar: string := "\U{1F464}"
  const DefaultRole: string := "Team Member"
  const ActivityPlaceholder: string := "<p>Content not yet available.</p>"
  const NoReflectionText: string := "No reflection available yet."
  const ReflectionPlaceholder: string := "<p>No reflection available yet.</p>"

  // ---------------------------------------------------------------- initials

  /** `getInitials(name)`: the default avatar for an empty name; otherwise the
      upper-cased first characters of the space-separated words, at most two. */
  function GetInitials(name: string): (r: string)
    ensures name == "" ==> r == DefaultAvatar
    ensures name != "" ==> r <= UpperString(WordStarts(name, true))
    ensures name != "" ==> |r| == Min(2, |WordStarts(name, true)|)
  {
    if name == "" then DefaultAvatar
    else
      FirstCharsOfSplit(name);
      Take(UpperString(FirstChars(Split(name))), 2)
  }

  /** A name made only of spaces is not empty, so it does not get the default
      avatar; it has no initials either, and the avatar is left blank. */
  lemma BlankNameHasNoInitials(name: string)
    requires name != "" && forall i :: 0 <= i < |name| ==> name[i] == ' '
    ensures GetInitials(name) == ""
  {
    WordStartsOfSpaces(name, true);
  }

  /** Only the first two words count, and lower-case letters are raised. */
  lemma ThreeWordInitials()
    ensures GetInitials("a b c") == "AB"
  {
    var name := "a b c";
    assert WordStarts(name[4..], true) == "c";
    assert WordStarts(name[2..], true) == "b" + WordStarts(name[3..], false);
    assert WordStarts(name, true) == "abc";
    var up := UpperString("abc");
    assert up[0] == 'A' && up[1] == 'B';
  }

  // ------------------------------------------------------------------ blocks

  /** One labelled block of an activity or of a reflection. */
  datatype Block =
    | Heading(text: string)
    | Paragraph(text: string)
    | TopicList(items: seq<string>)
    | TaskList(items: seq<string>)
    | ScoreLine(text: string)
    | NoteLine(text: string)
    | Intro(text: string)
    | Learnings(items: seq<string>)
    | Challenges(items: seq<string>)
    | Future(text: string)
    | Closing(text: string)

  /** The place of a block in the fixed order of its record's fields. */
  function Rank(b: Block): nat {
    match b
    case Heading(_) => 0
    case Paragraph(_) => 1
    case TopicList(_) => 2
    case TaskList(_) => 3
    case ScoreLine(_) => 4
    case NoteLine(_) => 5
    case Intro(_) => 0
    case Learnings(_) => 1
    case Challenges(_) => 2
    case Future(_) => 3
    case Closing(_) => 4
  }

  /** One `<li>` per entry, in order (the `forEach` that appends list items). */
  function Items(xs: seq<string>): string {
    if |xs| == 0 then "" else "<li>" + xs[0] + "</li>" + Items(xs[1..])
  }

  /** The markup each block contributes. */
  function Markup(b: Block): (r: string)
    ensures r != ""
  {
    match b
    case Heading(t) => "<h5>" + t + "</h5>"
    case Paragraph(t) => "<p>" + t + "</p>"
    case TopicList(xs) => "<h5>Topics Covered:</h5><ul>" + Items(xs) + "</ul>"
    case TaskList(xs) => "<h5>Tasks Completed:</h5><ol>" + Items(xs) + "</ol>"
    case ScoreLine(t) => "<p><strong>Score:</strong> " + t + "</p>"
    case NoteLine(t) => "<p><em>" + t + "</em></p>"
    case Intro(t) => "<p>" + t + "</p>"
    case Learnings(xs) => "<h4>Key Learnings</h4><ul>" + Items(xs) + "</ul>"
    case Challenges(xs) => "<h4>Challenges Faced</h4><ul>" + Items(xs) + "</ul>"
    case Future(t) => "<h4>Future Goals</h4><p>" + t + "</p>"
    case Closing(t) => "<p>" + t + "</p>"
  }

  function BlocksHtml(bs: seq<Block>): string {
    if |bs| == 0 then "" else Markup(bs[0]) + BlocksHtml(bs[1..])
  }

  /** Blocks strictly follow the field order. */
  predicate Ordered(bs: seq<Block>) {
    forall i, j :: 0 <= i < j < |bs| ==> Rank(bs[i]) < Rank(bs[j])
  }

  /** The blocks `slots[j]`, `j >= k`, whose flag `shown[j]` is set, in slot
      order: the chain of `if (field) html += ...` steps of the renderer. */
  function Select(slots: seq<Block>, shown: seq<bool>, k: nat): seq<Block>
    requires |shown| == |slots| && k <= |slots|
    decreases |slots| - k
  {
    if k == |slots| then []
    else if shown[k] then [slots[k]] + Select(slots, shown, k + 1)
    else Select(slots, shown, k + 1)
  }

  /** `bs` lists, in slot order, exactly the flagged slots from `k` on. */
  predicate IsSelection(bs: seq<Block>, slots: seq<Block>, shown: seq<bool>, k: nat)
    requires |shown| == |slots|
  {
    && Ordered(bs)
    && (forall i :: 0 <= i < |bs| ==>
          k <= Rank(bs[i]) < |slots| && shown[Rank(bs[i])] && bs[i] == slots[Rank(bs[i])])
    && (forall j :: k <= j < |slots| && shown[j] ==> slots[j] in bs)
  }

  /** When every slot sits at its own rank, `Select` is such a selection. */
  lemma {:induction false} SelectShape(slots: seq<Block>, shown: seq<bool>, k: nat)
    requires |shown| == |slots| && k <= |slots|
    requires forall j :: 0 <= j < |slots| ==> Rank(slots[j]) == j
    ensures IsSelection(Select(slots, shown, k), slots, shown, k)
    decreases |slots| - k
  {
    if k < |slots| {
      SelectShape(slots, shown, k + 1);
      var rest := Select(slots, shown, k + 1);
      if shown[k] {
        ConsSelection(slots[k], rest, slots, shown, k);
      }
    }
  }

  /** One inductive step of `SelectShape`: putting the flagged slot `k` in
      front of a selection from `k + 1` on. */
  lemma ConsSelection(b: Block, rest: seq<Block>, slots: seq<Block>, shown: seq<bool>, k: nat)
    requires |shown| == |slots| && k < |slots| && shown[k] && b == slots[k] && Rank(b) == k
    requires IsSelection(rest, slots, shown, k + 1)
    ensures IsSelection([b] + rest, slots, shown, k)
  {
    var bs := [b] + rest;
    assert forall i :: 0 < i < |bs| ==> bs[i] == rest[i - 1];
    assert bs[0] == b;
  }

  /** The markup of `Select(slots, shown, k)`, written as the renderer writes
      it: one optional piece per slot, concatenated. */
  function Pieces(slots: seq<Block>, shown: seq<bool>, k: nat): string
    requires |shown| == |slots| && k <= |slots|
    decreases |slots| - k
  {
    if k == |slots| then "" else (if shown[k] then Markup(slots[k]) else "") + Pieces(slots, shown, k + 1)
  }

  lemma ConsHtml(b: Block, rest: seq<Block>)
    ensures BlocksHtml([b] + rest) == Markup(b) + BlocksHtml(rest)
  {
    assert ([b] + rest)[1..] == rest;
  }

  lemma {:induction false} SelectHtml(slots: seq<Block>, shown: seq<bool>, k: nat)
    requires |shown| == |slots| && k <= |slots|
    ensures BlocksHtml(Select(slots, shown, k)) == Pieces(slots, shown, k)
    decreases |slots| - k
  {
    if k < |slots| {
      SelectHtml(slots, shown, k + 1);
      var rest := Select(slots, shown, k + 1);
      var tail := Pieces(slots, shown, k + 1);
      if shown[k] {
        assert Select(slots, shown, k) == [slots[k]] + rest;
        ConsHtml(slots[k], rest);
        assert Pieces(slots, shown, k) == Markup(slots[k]) + tail;
      } else {
        assert Select(slots, shown, k) == rest;
        assert Pieces(slots, shown, k) == "" + tail;
        assert "" + tail == tail;
      }
    }
  }

  /** A slot's block is selected exactly when its flag is set. */
  lemma SelectMember(slots: seq<Block>, shown: seq<bool>, j: nat)
    requires |shown| == |slots| && j < |slots|
    requires forall j :: 0 <= j < |slots| ==> Rank(slots[j]) == j
    ensures slots[j] in Select(slots, shown, 0) <==> shown[j]
  {
    SelectShape(slots, shown, 0);
    var bs := Select(slots, shown, 0);
    if slots[j] in bs {
      var i :| 0 <= i < |bs| && bs[i] == slots[j];
      assert Rank(bs[i]) == j;
    }
  }

  // -------------------------------------------------------------- activities

  function ActivitySlots(a: Activity): seq<Block>
    requires a.Structured?
  {
    [Heading(a.title), Paragraph(a.description), TopicList(a.topics), TaskList(a.tasks),
     ScoreLine(a.score), NoteLine(a.notes)]
  }

  function ActivityShown(a: Activity): seq<bool>
    requires a.Structured?
  {
    [a.title != "", a.description != "", |a.topics| > 0, |a.tasks| > 0, a.score != "", a.notes != ""]
  }

  /** The blocks a structured activity shows: exactly its non-empty fields,
      each once with that field's content, in the order title, description,
      topics, tasks, score, notes. */
  function ActivityBlocks(a: Activity): (bs: seq<Block>)
    requires a.Structured?
    ensures Ordered(bs)
    ensures Heading(a.title) in bs <==> a.title != ""
    ensures Paragraph(a.description) in bs <==> a.description != ""
    ensures TopicList(a.topics) in bs <==> |a.topics| > 0
    ensures TaskList(a.tasks) in bs <==> |a.tasks| > 0
    ensures ScoreLine(a.score) in bs <==> a.score != ""
    ensures NoteLine(a.notes) in bs <==> a.notes != ""
    ensures forall i :: 0 <= i < |bs| ==> bs[i] == ActivitySlots(a)[Rank(bs[i])]
  {
    var slots, shown := ActivitySlots(a), ActivityShown(a);
    assert forall j :: 0 <= j < |slots| ==> Rank(slots[j]) == j;
    SelectShape(slots, shown, 0);
    SelectMember(slots, shown, 0);
    SelectMember(slots, shown, 1);
    SelectMember(slots, shown, 2);
    SelectMember(slots, shown, 3);
    SelectMember(slots, shown, 4);
    SelectMember(slots, shown, 5);
    Select(slots, shown, 0)
  }

  /** `renderActivity(id, content)`: the placeholder for a missing or empty
      activity, one paragraph for a text, and for a record the markup of its
      shown blocks in field order, or the placeholder when none is shown.
      The result is never empty. */
  function RenderActivity(a: Activity): (html: string)
    ensures html != ""
    ensures a.Absent? ==> html == ActivityPlaceholder
    ensures a.Plain? && a.text == "" ==> html == ActivityPlaceholder
    ensures a.Plain? && a.text != "" ==> html == "<p>" + a.text + "</p>"
    ensures a.Structured? && ActivityBlocks(a) == [] ==> html == ActivityPlaceholder
    ensures a.Structured? && ActivityBlocks(a) != [] ==> html == BlocksHtml(ActivityBlocks(a))
  {
    match a
    case Absent => ActivityPlaceholder
    case Plain(t) => if t == "" then ActivityPlaceholder else Markup(Paragraph(t))
    case Structured(_, _, _, _, _, _) =>
      var slots, shown := ActivitySlots(a), ActivityShown(a);
      assert forall j :: 0 <= j < |slots| ==> Rank(slots[j]) == j;
      SelectHtml(slots, shown, 0);
      NonEmptyHtml(Select(slots, shown, 0));
      var html := Pieces(slots, shown, 0);
      if html == "" then ActivityPlaceholder else html
  }

  lemma NonEmptyHtml(bs: seq<Block>)
    ensures BlocksHtml(bs) == "" <==> bs == []
  {
    if bs != [] {
      assert |Markup(bs[0])| > 0;
    }
  }

  /** A record holding only a score renders as exactly one score line. */
  lemma ScoreOnlyActivity(score: string)
    requires score != ""
    ensures RenderActivity(Structured("", "", [], [], score, ""))
            == "<p><strong>Score:</strong> " + score + "</p>"
  {
    var a := Structured("", "", [], [], score, "");
    var slots, shown := ActivitySlots(a), ActivityShown(a);
    assert Pieces(slots, shown, 5) == "";
    assert Pieces(slots, shown, 4) == Markup(ScoreLine(score));
    assert Pieces(slots, shown, 3) == Pieces(slots, shown, 4);
    assert Pieces(slots, shown, 2) == Pieces(slots, shown, 3);
    assert Pieces(slots, shown, 1) == Pieces(slots, shown, 2);
  }

  // -------------------------------------------------------------- reflection

  function ReflectionSlots(r: Reflection): seq<Block> {
    [Intro(r.introduction), Learnings(r.learnings), Challenges(r.challenges), Future(r.future),
     Closing(r.text)]
  }

  function ReflectionShown(r: Reflection): seq<bool> {
    [r.introduction != "", |r.learnings| > 0, |r.challenges| > 0, r.future != "", r.text != ""]
  }

  /** The blocks a reflection shows: exactly its non-empty fields, each once,
      in the order introduction, learnings, challenges, future, text. */
  function ReflectionBlocks(r: Reflection): (bs: seq<Block>)
    ensures Ordered(bs)
    ensures Intro(r.introduction) in bs <==> r.introduction != ""
    ensures Learnings(r.learnings) in bs <==> |r.learnings| > 0
    ensures Challenges(r.challenges) in bs <==> |r.challenges| > 0
    ensures Future(r.future) in bs <==> r.future != ""
    ensures Closing(r.text) in bs <==> r.text != ""
    ensures forall i :: 0 <= i < |bs| ==> Rank(bs[i]) < 5 && bs[i] == ReflectionSlots(r)[Rank(bs[i])]
  {
    var slots, shown := ReflectionSlots(r), ReflectionShown(r);
    assert forall j :: 0 <= j < |slots| ==> Rank(slots[j]) == j;
    SelectShape(slots, shown, 0);
    SelectMember(slots, shown, 0);
    SelectMember(slots, shown, 1);
    SelectMember(slots, shown, 2);
    SelectMember(slots, shown, 3);
    SelectMember(slots, shown, 4);
    Select(slots, shown, 0)
  }

  /** `renderReflection(member)`: a missing reflection is read as one whose
      only field is the text "No reflection available yet."; the shown blocks
      are rendered in field order, and the same placeholder paragraph stands
      in when no block is shown. */
  function RenderReflection(refl: Option<Reflection>): (html: string)
    ensures html != ""
    ensures refl.None? ==> html == ReflectionPlaceholder
    ensures refl.Some? && ReflectionBlocks(refl.value) == [] ==> html == ReflectionPlaceholder
    ensures refl.Some? && ReflectionBlocks(refl.value) != [] ==> html == BlocksHtml(ReflectionBlocks(refl.value))
  {
    var r := refl.GetOr(MissingReflection);
    var slots, shown := ReflectionSlots(r), ReflectionShown(r);
    assert forall j :: 0 <= j < |slots| ==> Rank(slots[j]) == j;
    SelectHtml(slots, shown, 0);
    NonEmptyHtml(Select(slots, shown, 0));
    if refl.None? then MissingReflectionHtml(); ReflectionPlaceholder
    else
      var html := Pieces(slots, shown, 0);
      if html == "" then ReflectionPlaceholder else html
  }

  /** What stands in for a member without a reflection. */
  const MissingReflection: Reflection := Reflection("", [], [], "", NoReflectionText)

  /** The stand-in reflection renders as the placeholder paragraph. */
  lemma MissingReflectionHtml()
    ensures Pieces(ReflectionSlots(MissingReflection), ReflectionShown(MissingReflection), 0)
            == ReflectionPlaceholder
  {
    var slots, shown := ReflectionSlots(MissingReflection), ReflectionShown(MissingReflection);
    var closing := Markup(Closing(NoReflectionText));
    assert closing == ReflectionPlaceholder;
    assert Pieces(slots, shown, 4) == closing + "";
    assert closing + "" == closing;
    assert Pieces(slots, shown, 3) == "" + closing;
    assert Pieces(slots, shown, 2) == "" + Pieces(slots, shown, 3);
    assert Pieces(slots, shown, 1) == "" + Pieces(slots, shown, 2);
    assert Pieces(slots, shown, 0) == "" + Pieces(slots, shown, 1);
    assert "" + closing == closing;
  }

  // ------------------------------------------------------------------ header

  /** The text node between the mail link and the GitHub link. */
  const Separator: string := " • "

  /** A child of the contact element: a link, or a bare text node. */
  datatype ContactNode = Link(href: string, text: string, newTab: bool) | TextNode(text: string)

  datatype Header = Header(avatar: string, background: string, name: string, role: string,
                           contact: seq<ContactNode>)

  /** `renderMemberHeader(member)`. `gradient` is the palette entry that
      `getRandomGradient` would pick; it is used only when the member has no
      color. The GitHub link is always preceded by the " • " separator, even
      when there is no e-mail link before it. */
  function RenderHeader(m: Member, gradient: string): (h: Header)
    ensures m.avatar != "" ==> h.avatar == m.avatar
    ensures m.avatar == "" ==> h.avatar == GetInitials(m.name)
    ensures m.color != "" ==> h.background == m.color
    ensures m.color == "" ==> h.background == gradient
    ensures h.name == m.name
    ensures h.role != "" && (h.role == m.role <==> m.role != "")
    ensures m.role == "" ==> h.role == DefaultRole
    ensures |h.contact| == (if m.email != "" then 1 else 0) + (if m.github != "" then 2 else 0)
    ensures m.email != "" ==> h.contact[0] == Link("mailto:" + m.email, m.email, false)
    ensures m.github != "" ==>
              h.contact[|h.contact| - 2..] == [TextNode(Separator), Link(m.github, "GitHub", true)]
  {
    var email := if m.email != "" then [Link("mailto:" + m.email, m.email, false)] else [];
    var github := if m.github != "" then [TextNode(Separator), Link(m.github, "GitHub", true)] else [];
    Header(
      if m.avatar != "" then m.avatar else GetInitials(m.name),
      if m.color != "" then m.color else gradient,
      m.name,
      if m.role != "" then m.role else DefaultRole,
      email + github)
  }

  /** The avatar is left blank exactly when the member has no avatar and a
      non-empty name in which no word starts: a name of spaces only. */
  lemma BlankAvatar(m: Member, gradient: string)
    ensures RenderHeader(m, gradient).avatar == "" <==>
              m.avatar == "" && m.name != "" && WordStarts(m.name, true) == ""
  {
    assert |DefaultAvatar| == 1;
  }

  /** The contact line holds a mail link exactly when there is an e-mail and
      a GitHub link exactly when there is a GitHub address, and nothing but
      those links and the separator. */
  lemma ContactLinks(m: Member, gradient: string)
    ensures var c := RenderHeader(m, gradient).contact;
            && (Link("mailto:" + m.email, m.email, false) in c <==> m.email != "")
            && (Link(m.github, "GitHub", true) in c <==> m.github != "")
            && (TextNode(Separator) in c <==> m.github != "")
            && forall n :: n in c ==>
                 n == Link("mailto:" + m.email, m.email, false) || n == TextNode(Separator)
                 || n == Link(m.github, "GitHub", true)
  {
  }

  // ---------------------------------------------------------------- overview

  datatype Card = Card(heading: string, body: string)

  /** The three overview cards; each body is the member's field when that is
      non-empty and a fixed default otherwise, so no card is ever blank. */
  function OverviewCards(m: Member): (cs: seq<Card>)
    ensures |cs| == 3
    ensures cs[0].heading == "About" && cs[1].heading == "Key Contributions"
    ensures cs[2].heading == "Skills & Technologies"
    ensures forall i :: 0 <= i < 3 ==> cs[i].body != ""
    ensures cs[0].body == m.bio <==> m.bio != ""
    ensures cs[1].body == m.contributions <==> m.contributions != ""
    ensures cs[2].body == m.skills <==> m.skills != ""
    ensures m.bio == "" ==> cs[0].body == "No bio available."
    ensures m.contributions == "" ==> cs[1].body == "Various contributions to the project."
    ensures m.skills == "" ==> cs[2].body == "HTML, CSS, JavaScript, Docker, Ansible"
  {
    [ Card("About", if m.bio != "" then m.bio else "No bio available."),
      Card("Key Contributions",
           if m.contributions != "" then m.contributions else "Various contributions to the project."),
      Card("Skills & Technologies",
           if m.skills != "" then m.skills else "HTML, CSS, JavaScript, Docker, Ansible") ]
  }

  const CardOpen: string := "\n    <div class=\"overview-card\">\n      <h4>"
  const CardMid: string := "</h4>\n      <p>"
  const CardClose: string := "</p>\n    </div>"

  function CardHtml(c: Card): string {
    CardOpen + c.heading + CardMid + c.body + CardClose
  }

  /** `renderOverview(member)`: the template literal with the three cards. */
  function OverviewHtml(m: Member): string {
    var cs := OverviewCards(m);
    CardHtml(cs[0]) + CardHtml(cs[1]) + CardHtml(cs[2]) + "\n  "
  }

  /** Card `c`'s body stands at offset `p` of `html`, right after the card's
      heading and the opening paragraph tag, and is followed by the card's
      closing tags. */
  predicate BodyAt(html: string, c: Card, p: nat) {
    && |c.heading| + |CardMid| <= p
    && p + |c.body| + |CardClose| <= |html|
    && html[p - |CardMid| - |c.heading|..p] == c.heading + CardMid
    && html[p..p + |c.body|] == c.body
    && html[p + |c.body|..p + |c.body| + |CardClose|] == CardClose
  }

  /** A slice of the middle part of a concatenation. */
  lemma MiddleSlice(x: string, y: string, z: string, a: nat, b: nat)
    requires a <= b <= |y|
    ensures (x + y + z)[|x| + a..|x| + b] == y[a..b]
  {
    assert forall i :: |x| + a <= i < |x| + b ==> (x + y + z)[i] == y[i - |x|];
  }

  /** The parts of one card's markup. */
  lemma CardParts(c: Card)
    ensures var o := |CardOpen| + |c.heading| + |CardMid|;
            var html := CardHtml(c);
            && |html| == o + |c.body| + |CardClose|
            && html[|CardOpen|..o] == c.heading + CardMid
            && html[o..o + |c.body|] == c.body
            && html[o + |c.body|..] == CardClose
  {
    var o := |CardOpen| + |c.heading| + |CardMid|;
    MiddleSlice(CardOpen, c.heading + CardMid, c.body + CardClose, 0, |c.heading| + |CardMid|);
    MiddleSlice(CardOpen + c.heading + CardMid, c.body, CardClose, 0, |c.body|);
    MiddleSlice(CardOpen + c.heading + CardMid + c.body, CardClose, "", 0, |CardClose|);
  }

  /** Card `c` placed after `before`: its body sits at the offset this
      function returns, in the sense of `BodyAt`. */
  function CardBody(before: string, c: Card, after: string): (p: nat)
    ensures BodyAt(before + CardHtml(c) + after, c, p)
    ensures p == |before| + |CardOpen| + |c.heading| + |CardMid|
  {
    var o := |CardOpen| + |c.heading| + |CardMid|;
    var html := CardHtml(c);
    CardParts(c);
    MiddleSlice(before, html, after, |CardOpen|, o);
    MiddleSlice(before, html, after, o, o + |c.body|);
    MiddleSlice(before, html, after, o + |c.body|, |html|);
    |before| + o
  }

  /** Where the markup of three cards in a row shows their bodies. */
  function ThreeBodies(c0: Card, c1: Card, c2: Card, tail: string): (at: seq<nat>)
    ensures |at| == 3
    ensures var html := CardHtml(c0) + CardHtml(c1) + CardHtml(c2) + tail;
            BodyAt(html, c0, at[0]) && BodyAt(html, c1, at[1]) && BodyAt(html, c2, at[2])
    ensures at[0] + |c0.body| < at[1] && at[1] + |c1.body| < at[2]
  {
    var h0, h1, h2 := CardHtml(c0), CardHtml(c1), CardHtml(c2);
    assert h0 + h1 + h2 + tail == h0 + (h1 + h2 + tail) == "" + h0 + (h1 + h2 + tail);
    assert h0 + h1 + h2 + tail == h0 + h1 + (h2 + tail);
    var p0 := CardBody("", c0, h1 + h2 + tail);
    var p1 := CardBody(h0, c1, h2 + tail);
    var p2 := CardBody(h0 + h1, c2, tail);
    CardParts(c0);
    CardParts(c1);
    [p0, p1, p2]
  }

  /** Where the overview markup shows the three card bodies: each body
      follows its own heading and is wrapped in its paragraph, and the
      cards come in the order About, Key Contributions, Skills &
      Technologies, without overlapping. */
  function OverviewBodies(m: Member): (at: seq<nat>)
    ensures |at| == 3
    ensures forall i :: 0 <= i < 3 ==> BodyAt(OverviewHtml(m), OverviewCards(m)[i], at[i])
    ensures at[0] + |OverviewCards(m)[0].body| < at[1]
    ensures at[1] + |OverviewCards(m)[1].body| < at[2]
  {
    var cs := OverviewCards(m);
    ThreeBodies(cs[0], cs[1], cs[2], "\n  ")
  }

  // -------------------------------------------------------------------- page

  /** Everything `renderMemberContent` writes into the member section. */
  datatype MemberPage = MemberPage(
    header: Header,
    overview: string,
    prelimHoa: string, prelimExam: string,
    midtermHoa: string, midtermExam: string,
    finalsHoa: string, finalExam: string,
    reflection: string)

  /** Every panel of the page is written from the member alone: the header,
      the overview, each of the six coursework panels from its own activity
      and the reflection panel from the reflection; none of the coursework or
      reflection panels is left empty. */
  function RenderMemberContent(m: Member, gradient: string): (p: MemberPage)
    ensures p.header == RenderHeader(m, gradient) && p.header.name == m.name
    ensures p.overview == OverviewHtml(m)
    ensures p.prelimHoa == RenderActivity(m.prelimHOA) && p.prelimExam == RenderActivity(m.prelimExam)
    ensures p.midtermHoa == RenderActivity(m.midtermHOA) && p.midtermExam == RenderActivity(m.midtermExam)
    ensures p.finalsHoa == RenderActivity(m.finalsHOA) && p.finalExam == RenderActivity(m.finalExam)
    ensures p.reflection == RenderReflection(m.reflection)
    ensures p.prelimHoa != "" && p.prelimExam != "" && p.midtermHoa != "" && p.midtermExam != ""
    ensures p.finalsHoa != "" && p.finalExam != "" && p.reflection != ""
  {
    MemberPage(
      RenderHeader(m, gradient),
      OverviewHtml(m),
      RenderActivity(m.prelimHOA), RenderActivity(m.prelimExam),
      RenderActivity(m.midtermHOA), RenderActivity(m.midtermExam),
      RenderActivity(m.finalsHOA), RenderActivity(m.finalExam),
      RenderReflection(m.reflection))
  }
}

=== FILE: router.dfy ===
/** The page's navigation state machine: the home view, the member view, the
    navigation links, the URL fragment and the route taken on load. */
module Router {
  import opened Wrappers
  import opened Numbers
  import opened Content
  import opened Store
  import opened Tabs
  import opened Render

  // -------------------------------------------------------- navigation links

  /** A `.nav-link` button: its text, and its `data-member-id` (the Home
      button has none). */
  datatype NavLink = NavLink(caption: string, memberId: Option<string>)

  /** The buttons `initializeNavigation` builds: Home, then one per member
      labelled with the member's name and tagged with `String(id || index)`. */
  function NavLinks(ms: seq<Member>): (links: seq<NavLink>)
    ensures |links| == |ms| + 1
    ensures links[0] == NavLink("Home", None)
    ensures forall i :: 0 <= i < |ms| ==> links[i + 1] == NavLink(ms[i].name, Some(KeyText(KeyAt(ms, i))))
  {
    [NavLink("Home", None)] + seq(|ms|, i requires 0 <= i < |ms| => NavLink(ms[i].name, Some(KeyText(KeyAt(ms, i)))))
  }

  /** `String(activeId)`, with `null` for the home view. */
  function ActiveText(activeId: Option<Key>): string {
    match activeId
    case None => "null"
    case Some(k) => KeyText(k)
  }

  /** `updateNavigation(activeId)`: a link is active when the home view is
      asked for and its text is "Home", or when its `data-member-id` equals
      `String(activeId)`. */
  function UpdateNavigation(links: seq<NavLink>, activeId: Option<Key>): seq<bool> {
    seq(|links|, i requires 0 <= i < |links| =>
      (activeId.None? && links[i].caption == "Home")
      || (links[i].memberId.Some? && links[i].memberId.value == ActiveText(activeId)))
  }

  /** The highlight over the links of `ms`, in terms of the members. For the
      home view the Home link is lit, and so is any member named "Home" or
      whose key reads "null"; for a key `k` the Home link is dark and a member
      link is lit exactly when that member's key has the same text as `k`. */
  function Highlight(ms: seq<Member>, activeId: Option<Key>): (lit: seq<bool>)
    ensures |lit| == |ms| + 1
    ensures lit[0] <==> activeId.None?
    ensures activeId.None? ==>
              forall i :: 0 <= i < |ms| ==> (lit[i + 1] <==> ms[i].name == "Home" || KeyText(KeyAt(ms, i)) == "null")
    ensures activeId.Some? ==>
              forall i :: 0 <= i < |ms| ==> (lit[i + 1] <==> KeyText(KeyAt(ms, i)) == KeyText(activeId.value))
  {
    NavigationLit(ms, activeId);
    UpdateNavigation(NavLinks(ms), activeId)
  }

  /** `Highlight`'s contract, link by link. */
  lemma NavigationLit(ms: seq<Member>, activeId: Option<Key>)
    ensures var lit := UpdateNavigation(NavLinks(ms), activeId);
            && |lit| == |ms| + 1
            && (lit[0] <==> activeId.None?)
            && (activeId.None? ==>
                  forall i :: 0 <= i < |ms| ==> (lit[i + 1] <==> ms[i].name == "Home" || KeyText(KeyAt(ms, i)) == "null"))
            && (activeId.Some? ==>
                  forall i :: 0 <= i < |ms| ==> (lit[i + 1] <==> KeyText(KeyAt(ms, i)) == KeyText(activeId.value)))
  {
    var links := NavLinks(ms);
    var lit := UpdateNavigation(links, activeId);
    forall i | 0 <= i < |ms|
      ensures activeId.None? ==> (lit[i + 1] <==> ms[i].name == "Home" || KeyText(KeyAt(ms, i)) == "null")
      ensures activeId.Some? ==> (lit[i + 1] <==> KeyText(KeyAt(ms, i)) == KeyText(activeId.value))
    {
      assert links[i + 1] == NavLink(ms[i].name, Some(KeyText(KeyAt(ms, i))));
      assert lit[i + 1] == ((activeId.None? && links[i + 1].caption == "Home")
                            || (links[i + 1].memberId.Some? && links[i + 1].memberId.value == ActiveText(activeId)));
    }
  }

  /** The highlight `initializeNavigation` leaves: only the Home link. */
  function InitialHighlight(ms: seq<Member>): (lit: seq<bool>)
    ensures |lit| == |ms| + 1
    ensures forall i :: 0 <= i < |lit| ==> (lit[i] <==> i == 0)
  {
    seq(|ms| + 1, i => i == 0)
  }

  // -------------------------------------------------------------------- URL

  /** What the `location.hash` setter keeps of the text it is given: one
      leading `#` is dropped, since it only marks the fragment. */
  function HashValue(t: string): (f: string)
    ensures |t| > 0 && t[0] == '#' ==> "#" + f == t
    ensures (|t| == 0 || t[0] != '#') ==> f == t
  {
    if |t| > 0 && t[0] == '#' then t[1..] else t
  }

  /** `updateURL(v)`: the fragment becomes `String(v)`, less one leading `#`,
      or is removed (here: empty) when `v` is falsy. */
  function UpdateUrl(v: Key): (fragment: string)
    ensures !Truthy(v) ==> fragment == ""
    ensures Truthy(v) ==> fragment == HashValue(KeyText(v))
    ensures v.Num? && Truthy(v) ==> fragment == IntToText(v.n)
  {
    if !Truthy(v) then ""
    else match v
      case Num(n) =>
        var t := IntToText(n);
        assert t[0] == '-' || IsDecimalDigit(t[0]);
        t
      case Str(s) => HashValue(s)
  }

  /** The fragment is cleared exactly for a falsy key and for the key "#". */
  lemma UpdateUrlClears(v: Key)
    ensures UpdateUrl(v) == "" <==> !Truthy(v) || KeyText(v) == "#"
  {
  }

  /** `parseInt(hash) || hash`: the number the fragment starts with, unless
      that is `NaN` or zero, in which case the fragment text itself. */
  function RouteKey(hash: string): (k: Key)
    ensures k.Num? ==> k.n != 0 && ParseInt(hash) == Some(k.n)
    ensures k.Str? ==> k.s == hash && (ParseInt(hash).None? || ParseInt(hash) == Some(0))
  {
    match ParseInt(hash)
    case Some(n) => if n != 0 then Num(n) else Str(hash)
    case None => Str(hash)
  }

  /** The truthy keys that survive being written to the fragment and read
      back: every non-zero number, and the strings that do not start with `#`
      and that `parseInt` reads as `NaN` or zero. */
  predicate RoundTrips(v: Key) {
    match v
    case Num(n) => n != 0
    case Str(s) => s != "" && s[0] != '#' && (ParseInt(s).None? || ParseInt(s) == Some(0))
  }

  /** `RouteKey` inverts `UpdateUrl` on exactly the keys that round-trip. */
  lemma RouteKeyInverse(v: Key)
    requires Truthy(v)
    ensures RouteKey(UpdateUrl(v)) == v <==> RoundTrips(v)
  {
    if v.Num? {
      ParseIntOfText(v.n);
    } else if v.s[0] == '#' {
      // The fragment is shorter than the key, so neither reading gives it back.
      assert |UpdateUrl(v)| < |v.s|;
    }
  }

  /** The member the fragment leads to on load: `find` on the routed key,
      without the positional fallback of `showMember`. An empty fragment
      leads nowhere. */
  function RouteTarget(ms: seq<Member>, fragment: string): (r: Option<nat>)
    ensures fragment == "" ==> r.None?
    ensures r.Some? ==> r.value < |ms| && KeyAt(ms, r.value) == RouteKey(fragment)
    ensures r.Some? ==> forall j :: 0 <= j < r.value ==> KeyAt(ms, j) != RouteKey(fragment)
    ensures fragment != "" && r.None? ==> forall i :: 0 <= i < |ms| ==> KeyAt(ms, i) != RouteKey(fragment)
  {
    if fragment == "" then None else Find(ms, RouteKey(fragment))
  }

  /** `member.id || memberId`: what `showMember` writes to the fragment. */
  function FragmentKey(m: Member, k: Key): (v: Key)
    ensures HasExplicitId(m) ==> v == m.id.value
    ensures !HasExplicitId(m) ==> v == k
  {
    if HasExplicitId(m) then m.id.value else k
  }

  // ------------------------------------------------------------------ state

  /** The application state with the parts of the page it drives. */
  datatype AppState = AppState(
    members: seq<Member>,
    current: Option<Member>,
    tabs: TabState,
    fragment: string,
    introHidden: bool,
    memberHidden: bool,
    nav: seq<bool>,
    page: Option<MemberPage>)

  predicate Valid(s: AppState) {
    WellFormed(s.tabs) && |s.nav| == |s.members| + 1
  }

  /** `showHome()`: show the introduction, hide the member section, forget
      the current member, light the Home link and clear the fragment. */
  function ShowHome(s: AppState): (r: AppState)
    requires Valid(s)
    ensures Valid(r)
    ensures r.current.None? && r.fragment == ""
    ensures !r.introHidden && r.memberHidden
    ensures r.nav[0] && r.nav == Highlight(s.members, None)
    ensures r.members == s.members && r.tabs == s.tabs && r.page == s.page
  {
    s.(current := None, introHidden := false, memberHidden := true,
       nav := Highlight(s.members, None), fragment := UpdateUrl(Str("")))
  }

  /** The home view forgets where the page was: it depends only on the
      members, the tab strip and the rendered page, not on the current
      member, the fragment, the visibility or the highlight. (After
      `showMember` it keeps the page that call rendered and the overview tab
      it selected.) Going home twice is going home once, and the cleared
      fragment routes home on reload. */
  lemma ShowHomeForgets(s1: AppState, s2: AppState)
    requires Valid(s1) && Valid(s2)
    requires s1.members == s2.members && s1.tabs == s2.tabs && s1.page == s2.page
    ensures ShowHome(s1) == ShowHome(s2)
    ensures ShowHome(ShowHome(s1)) == ShowHome(s1)
    ensures RouteTarget(s1.members, ShowHome(s1).fragment).None?
  {
  }

  /** `showMember(k)`: on a miss nothing changes. Otherwise the resolved
      member becomes current and is rendered, the member section replaces the
      introduction, the links are lit for `k` (the key asked for, not the
      resolved member's), the overview tab is selected and the fragment
      becomes `member.id || k`. `gradient` stands for `getRandomGradient()`. */
  method ShowMember(s: AppState, k: Key, gradient: string) returns (r: AppState)
    requires Valid(s)
    ensures Valid(r) && r.members == s.members
    ensures Resolve(s.members, k).None? ==> r == s
    ensures Resolve(s.members, k).Some? ==>
              var m := s.members[Resolve(s.members, k).value];
              && r.current == Some(m)
              && r.page == Some(RenderMemberContent(m, gradient))
              && r.introHidden && !r.memberHidden
              && r.nav == Highlight(s.members, Some(k))
              && Shows(r.tabs, "overview")
              && r.tabs.buttons == s.tabs.buttons && r.tabs.panels == s.tabs.panels
              && r.fragment == UpdateUrl(FragmentKey(m, k))
  {
    var found := Resolve(s.members, k);
    if found.None? {
      return s;
    }
    var m := s.members[found.value];
    var tabs := SwitchTab(s.tabs, "overview");
    r := s.(current := Some(m), introHidden := true, memberHidden := false,
            page := Some(RenderMemberContent(m, gradient)),
            nav := Highlight(s.members, Some(k)), tabs := tabs,
            fragment := UpdateUrl(FragmentKey(m, k)));
  }

  /** `handleInitialRoute()`: a fragment whose routed key some member answers
      to shows the first such member; anything else shows the home view. */
  method HandleInitialRoute(s: AppState, gradient: string) returns (r: AppState)
    requires Valid(s)
    ensures Valid(r) && r.members == s.members
    ensures RouteTarget(s.members, s.fragment).Some? ==>
              var m := s.members[RouteTarget(s.members, s.fragment).value];
              && r.current == Some(m)
              && r.page == Some(RenderMemberContent(m, gradient))
              && r.introHidden && !r.memberHidden
              && r.nav == Highlight(s.members, Some(RouteKey(s.fragment)))
              && Shows(r.tabs, "overview") && r.tabs.buttons == s.tabs.buttons && r.tabs.panels == s.tabs.panels
              && r.fragment == UpdateUrl(FragmentKey(m, RouteKey(s.fragment)))
    ensures RouteTarget(s.members, s.fragment).None? ==>
              && r == ShowHome(s)
              && r.current.None? && r.fragment == ""
              && !r.introHidden && r.memberHidden
              && r.nav == Highlight(s.members, None)
  {
    if s.fragment != "" {
      var k := RouteKey(s.fragment);
      if Find(s.members, k).Some? {
        r := ShowMember(s, k, gradient);
        return;
      }
    }
    r := ShowHome(s);
  }

  /** Page load: load the content, build the navigation (Home lit), then
      route on the fragment the page was opened with. */
  method Startup(o: FetchOutcome, tabs: TabState, fragment: string, gradient: string) returns (s: AppState)
    requires WellFormed(tabs)
    ensures Valid(s) && |s.members| > 0
    ensures Usable(o) ==> s.members == o.members.value
    ensures !Usable(o) ==> IsSampleList(s.members)
    ensures s.current.Some? <==> RouteTarget(s.members, fragment).Some?
    ensures RouteTarget(s.members, fragment).Some? ==>
              s.current == Some(s.members[RouteTarget(s.members, fragment).value])
    ensures RouteTarget(s.members, fragment).None? ==>
              s.nav == Highlight(s.members, None) && !s.introHidden && s.memberHidden
  {
    var ms := LoadContent(o);
    var initial := AppState(ms, None, tabs, fragment, false, true, InitialHighlight(ms), None);
    s := HandleInitialRoute(initial, gradient);
  }

  // ------------------------------------------------------------- properties

  /** No two members answer to the same key. */
  predicate DistinctKeys(ms: seq<Member>) {
    forall i, j :: 0 <= i < |ms| && 0 <= j < |ms| && KeyAt(ms, i) == KeyAt(ms, j) ==> i == j
  }

  /** A fragment value that reads back as itself: a non-zero number, or a
      non-empty string that does not start with `#` and in which `parseInt`
      finds no number. */
  predicate Bookmarkable(v: Key) {
    match v
    case Num(n) => n != 0
    case Str(s) => s != "" && s[0] != '#' && ParseInt(s).None?
  }

  /** A member reached by `find`, as every navigation link and every reload
      reaches one, is shown again on reload from the fragment it wrote, even
      when other members answer to the same key: `find` picks the same first
      match both times. */
  lemma RoundTripByKey(ms: seq<Member>, k: Key, i: nat)
    requires i < |ms| && Find(ms, k) == Some(i)
    requires Bookmarkable(FragmentKey(ms[i], k))
    ensures RouteTarget(ms, UpdateUrl(FragmentKey(ms[i], k))) == Some(i)
  {
    assert FragmentKey(ms[i], k) == k;
    RouteKeyInverse(k);
  }

  /** Reloading the page on the fragment `showMember(k)` wrote shows the same
      member again, when the written key is a non-zero number or a string
      without a number or a leading `#`, and, for a member reached through the
      positional fallback, member keys are distinct. */
  lemma RouteRoundTrip(ms: seq<Member>, k: Key, i: nat)
    requires i < |ms| && (Find(ms, k).None? ==> DistinctKeys(ms))
    requires Resolve(ms, k) == Some(i)
    requires Bookmarkable(FragmentKey(ms[i], k))
    ensures RouteTarget(ms, UpdateUrl(FragmentKey(ms[i], k))) == Some(i)
  {
    if Find(ms, k).Some? {
      RoundTripByKey(ms, k, i);
      return;
    }
    var v := FragmentKey(ms[i], k);
    RouteKeyInverse(v);
    assert RouteKey(UpdateUrl(v)) == v;
    if !HasExplicitId(ms[i]) && KeyAt(ms, i) != k {
      // `i` came from the positional fallback, so nothing answers to `k`.
      assert forall j :: 0 <= j < |ms| ==> KeyAt(ms, j) != k;
      assert Position(ms, k) == Some(i);
      if k.Str? {
        assert NatToText(i) == IntToText(i);
        ParseIntOfText(i);
        assert false;
      }
    }
    assert KeyAt(ms, i) == v;
  }

  lemma ZeroRoutesAsText()
    ensures RouteKey("0") == Str("0")
  {
    ParseIntOfText(0);
    assert IntToText(0) == "0";
  }

  /** `#0` leads home: `parseInt("0")` is falsy, so the key is the string
      "0", which no member answers to unless one has that id, even though
      `showMember(0)` reaches the first member. */
  lemma HashZeroGoesHome(ms: seq<Member>)
    requires |ms| > 0
    requires forall i :: 0 <= i < |ms| ==> KeyAt(ms, i) != Str("0")
    ensures RouteTarget(ms, "0").None?
    ensures Resolve(ms, Num(0)) == Some(0)
  {
    ZeroRoutesAsText();
    assert Find(ms, Str("0")).None?;
    ZeroReachesFirstMember(ms);
  }

  /** `showMember(0)` always reaches the first member: by its position when
      it has no id, and through `members[0]` otherwise, since no explicit id
      can be the falsy 0. */
  lemma ZeroReachesFirstMember(ms: seq<Member>)
    requires |ms| > 0
    ensures Resolve(ms, Num(0)) == Some(0)
  {
    if Find(ms, Num(0)).Some? {
      assert KeyAt(ms, 0) == Num(0);
    }
  }

  /** Showing the first member by its index clears the fragment when that
      member has no id, so the view cannot be bookmarked. */
  lemma FirstMemberClearsFragment(ms: seq<Member>)
    requires |ms| > 0 && !HasExplicitId(ms[0])
    ensures Resolve(ms, Num(0)) == Some(0)
    ensures UpdateUrl(FragmentKey(ms[0], Num(0))) == ""
    ensures RouteTarget(ms, UpdateUrl(FragmentKey(ms[0], Num(0)))).None?
  {
    assert KeyAt(ms, 0) == Num(0);
  }

  /** The highlight follows the text of the key asked for, not the member
      shown: with ids 1 and 2, `showMember("1")` finds no key equal to the
      string "1" and shows the second member through `members["1"]`, while
      the link tagged "1", the first member's, is lit. */
  lemma HighlightFollowsKeyText()
    ensures var anon := Member(None, "A", "", "", "", "", "", "", "", "",
                               Absent, Absent, Absent, Absent, Absent, Absent, None);
            var ms := [anon.(id := Some(Num(1))), anon.(id := Some(Num(2)))];
            Resolve(ms, Str("1")) == Some(1) && Highlight(ms, Some(Str("1"))) == [false, true, false]
  {
    var anon := Member(None, "A", "", "", "", "", "", "", "", "",
                       Absent, Absent, Absent, Absent, Absent, Absent, None);
    var ms := [anon.(id := Some(Num(1))), anon.(id := Some(Num(2)))];
    assert KeyAt(ms, 0) == Num(1) && KeyAt(ms, 1) == Num(2);
    assert NatToText(1) == "1" && NatToText(0) == "0";
    assert IntToText(1) == "1" && IntToText(2) == "2";
    assert Position(ms, Str("1")) == Some(1);
  }

  /** An id starting with `#` cannot be bookmarked: the hash setter drops the
      `#`, so a member with id "#a" writes the fragment "a", and when no
      member answers to "a" a reload goes home. */
  lemma HashIdGoesHome(ms: seq<Member>, i: nat)
    requires i < |ms| && ms[i].id == Some(Str("#a"))
    requires forall j :: 0 <= j < |ms| ==> KeyAt(ms, j) != Str("a")
    ensures UpdateUrl(FragmentKey(ms[i], Str("#a"))) == "a"
    ensures RouteTarget(ms, "a").None?
  {
    assert HasExplicitId(ms[i]);
    assert FragmentKey(ms[i], Str("#a")) == Str("#a");
    assert KeyText(Str("#a")) == "#a";
    assert HashValue("#a") == "a" by {
      assert "#a"[1..] == "a";
    }
    LetterRoutesAsText();
    assert Find(ms, Str("a")).None?;
  }

  /** The fragment "a" holds no number, so it routes as the string "a". */
  lemma LetterRoutesAsText()
    ensures RouteKey("a") == Str("a")
  {
    assert TrimStart("a") == "a";
    assert ParseUnsigned("a").None?;
  }

  /** Every member of the sample data can be bookmarked: the fragment its
      id writes leads back to it. */
  lemma SampleRoutes(ms: seq<Member>, n: int)
    requires IsSampleList(ms) && 1 <= n <= 3
    ensures RouteTarget(ms, UpdateUrl(Num(n))) == Some(n - 1)
  {
    RouteKeyInverse(Num(n));
    SampleIdsResolve(ms, n);
  }
}

=== FILE: store.dfy ===
/** The content store: the loaded member list, the key each member answers
    to, the `find` over those keys with its positional fallback, and the
    load step that falls back to the sample data. */
module Store {
  import opened Wrappers
  import opened Content
  import Numbers
  import Fixture

  /** `m.id || state.members.indexOf(m)` for the member at index `i`: its
      explicit id when that is truthy, its position otherwise. (Members parsed
      from JSON are distinct objects, so `indexOf` finds the member's own
      position.) */
  function KeyAt(ms: seq<Member>, i: nat): (k: Key)
    requires i < |ms|
    ensures HasExplicitId(ms[i]) ==> k == ms[i].id.value
    ensures !HasExplicitId(ms[i]) ==> k == Num(i)
  {
    if HasExplicitId(ms[i]) then ms[i].id.value else Num(i)
  }

  /** The linear search of `Array.prototype.find`, from index `from` on. */
  function FindFrom(ms: seq<Member>, k: Key, from: nat): (r: Option<nat>)
    requires from <= |ms|
    ensures r.Some? ==> from <= r.value < |ms| && KeyAt(ms, r.value) == k
    ensures r.Some? ==> forall j :: from <= j < r.value ==> KeyAt(ms, j) != k
    ensures r.None? ==> forall j :: from <= j < |ms| ==> KeyAt(ms, j) != k
    decreases |ms| - from
  {
    if from == |ms| then None
    else if KeyAt(ms, from) == k then Some(from)
    else FindFrom(ms, k, from + 1)
  }

  /** `members.find(m => (m.id || members.indexOf(m)) === k)`, as an index:
      the first member whose key is `k`. */
  function Find(ms: seq<Member>, k: Key): (r: Option<nat>)
    ensures r.Some? ==> r.value < |ms| && KeyAt(ms, r.value) == k
    ensures r.Some? ==> forall j :: 0 <= j < r.value ==> KeyAt(ms, j) != k
    ensures r.None? <==> forall j :: 0 <= j < |ms| ==> KeyAt(ms, j) != k
  {
    FindFrom(ms, k, 0)
  }

  /** `members[k]`: a number indexes the array directly, and a string does so
      only when it is the decimal numeral of an index (the array-index
      property names `"0"`, `"1"`, ...; `"01"` or `"-1"` are not). Other
      property names of an array are not modelled. */
  function Position(ms: seq<Member>, k: Key): (r: Option<nat>)
    ensures r.Some? ==> r.value < |ms|
    ensures r.Some? ==> k == Num(r.value) || k == Str(Numbers.NatToText(r.value))
    ensures k.Num? && 0 <= k.n < |ms| ==> r == Some(k.n)
    ensures k.Str? && r.None? ==> forall n :: 0 <= n < |ms| ==> Numbers.NatToText(n) != k.s
  {
    match k
    case Num(n) => if 0 <= n < |ms| then Some(n) else None
    case Str(s) => NumeralIndex(ms, s, 0)
  }

  function NumeralIndex(ms: seq<Member>, s: string, from: nat): (r: Option<nat>)
    requires from <= |ms|
    ensures r.Some? ==> from <= r.value < |ms| && Numbers.NatToText(r.value) == s
    ensures r.None? ==> forall n :: from <= n < |ms| ==> Numbers.NatToText(n) != s
    decreases |ms| - from
  {
    if from == |ms| then None
    else if Numbers.NatToText(from) == s then Some(from)
    else NumeralIndex(ms, s, from + 1)
  }

  /** The lookup in `showMember`: `find(...) || members[k]`. A key match
      anywhere in the list wins over the positional reading of `k`; the first
      match in list order is taken, whether it came from an explicit id or
      from a position. */
  function Resolve(ms: seq<Member>, k: Key): (r: Option<nat>)
    ensures r.Some? ==> r.value < |ms|
    ensures (exists i :: 0 <= i < |ms| && KeyAt(ms, i) == k) ==>
              r.Some? && KeyAt(ms, r.value) == k && forall j :: 0 <= j < r.value ==> KeyAt(ms, j) != k
    ensures (forall i :: 0 <= i < |ms| ==> KeyAt(ms, i) != k) ==> r == Position(ms, k)
  {
    match Find(ms, k)
    case Some(i) => Some(i)
    case None => Position(ms, k)
  }

  /** A member without an explicit id is reached by its position, unless an
      earlier member claims that position as its explicit id. */
  lemma PositionalFallback(ms: seq<Member>, i: nat)
    requires i < |ms| && !HasExplicitId(ms[i])
    requires forall j :: 0 <= j < i ==> KeyAt(ms, j) != Num(i)
    ensures Resolve(ms, Num(i)) == Some(i)
  {
    assert KeyAt(ms, i) == Num(i);
  }

  /** A member with an explicit id is reached by that id, unless an earlier
      member answers to the same key. */
  lemma ExplicitIdLookup(ms: seq<Member>, i: nat)
    requires i < |ms| && HasExplicitId(ms[i])
    requires forall j :: 0 <= j < i ==> KeyAt(ms, j) != ms[i].id.value
    ensures Resolve(ms, ms[i].id.value) == Some(i)
  {
    assert KeyAt(ms, i) == ms[i].id.value;
  }

  /** First match wins even against an explicit id: in `[{}, {}, {id: 1}]`
      the key `1` reaches the second member by position, not the third by
      its id. */
  lemma EarlierPositionBeatsExplicitId()
    ensures var anon := Member(None, "A", "", "", "", "", "", "", "", "",
                               Absent, Absent, Absent, Absent, Absent, Absent, None);
            var ms := [anon, anon, anon.(id := Some(Num(1)))];
            Resolve(ms, Num(1)) == Some(1) && KeyAt(ms, 2) == Num(1)
  {
    var anon := Member(None, "A", "", "", "", "", "", "", "", "",
                       Absent, Absent, Absent, Absent, Absent, Absent, None);
    var ms := [anon, anon, anon.(id := Some(Num(1)))];
    assert KeyAt(ms, 1) == Num(1);
  }

  /** What `fetch('content.json')` and `response.json()` produced. */
  datatype FetchOutcome =
    | Rejected                            // network failure or unparsable body
    | NotOk(status: int)                  // `response.ok` is false
    | Fetched(members: Option<seq<Member>>) // parsed body; `None` when it has no `members`

  /** The fetch produced a non-empty member list. */
  predicate Usable(o: FetchOutcome) {
    o.Fetched? && o.members.Some? && |o.members.value| > 0
  }

  /** The three-member sample list: ids 1, 2, 3 in that order. */
  predicate IsSampleList(ms: seq<Member>) {
    |ms| == 3 && forall i :: 0 <= i < 3 ==> ms[i].id == Some(Num(i + 1))
  }

  /** `loadContent`: the fetched list when the response was ok and its member
      list non-empty, the sample data in every other case; never empty. */
  method LoadContent(o: FetchOutcome) returns (ms: seq<Member>)
    ensures |ms| > 0
    ensures Usable(o) ==> ms == o.members.value
    ensures !Usable(o) ==> IsSampleList(ms)
  {
    if Usable(o) {
      ms := o.members.value;
    } else {
      ms := Fixture.SampleData();
    }
  }

  /** Every id of the sample data reaches its member, by lookup and by the
      `find` the router uses. */
  lemma SampleIdsResolve(ms: seq<Member>, n: int)
    requires IsSampleList(ms) && 1 <= n <= 3
    ensures Find(ms, Num(n)) == Some(n - 1)
    ensures Resolve(ms, Num(n)) == Some(n - 1)
  {
    assert KeyAt(ms, n - 1) == Num(n);
  }

  /** A number that is neither a sample id nor a sample position, such as
      999, is a miss. (`0` is not an id but still reaches the first member
      through `members[0]`.) */
  lemma SampleMiss(ms: seq<Member>, k: Key)
    requires IsSampleList(ms)
    requires k.Num? && (k.n < 0 || k.n > 3)
    ensures Resolve(ms, k).None?
  {
  }
}

=== FILE: tabs.dfy ===
/** The tab strip of the member section: the `.tab` buttons, named by their
    `data-tab`, and the `.tab-panel` panels, named by their element id. */
module Tabs {
  import opened Wrappers

  /** The tab state: the remembered tab name, and for each button and each
      panel (in document order) whether it is active / visible. The
      `aria-selected` attribute of a button always mirrors its `active` flag
      and is not kept separately. */
  datatype TabState = TabState(
    current: string,
    buttons: seq<string>,
    active: seq<bool>,
    panels: seq<string>,
    visible: seq<bool>)

  predicate WellFormed(v: TabState) {
    |v.active| == |v.buttons| && |v.visible| == |v.panels|
  }

  /** The element id of the panel of tab `t`. */
  function PanelId(t: string): string {
    "panel-" + t
  }

  /** `document.getElementById(id)` among the panels: the first one, in
      document order, carrying that id. */
  function FirstIndex(xs: seq<string>, x: string): (r: Option<nat>)
    ensures r.Some? ==> r.value < |xs| && xs[r.value] == x
    ensures r.Some? ==> forall j :: 0 <= j < r.value ==> xs[j] != x
    ensures r.None? <==> x !in xs
  {
    if |xs| == 0 then None
    else if xs[0] == x then Some(0)
    else match FirstIndex(xs[1..], x)
      case None => None
      case Some(j) => Some(j + 1)
  }

  /** The tab strip after `switchTab(t)`: tab `t` is remembered, the active
      buttons are exactly those whose `data-tab` is `t`, and the visible panels
      are exactly the one that `getElementById("panel-" + t)` returns. */
  predicate Shows(v: TabState, t: string) {
    && WellFormed(v)
    && v.current == t
    && (forall i :: 0 <= i < |v.buttons| ==> (v.active[i] <==> v.buttons[i] == t))
    && (forall i :: 0 <= i < |v.panels| ==> (v.visible[i] <==> FirstIndex(v.panels, PanelId(t)) == Some(i)))
  }

  /** `switchTab(t)`: remember `t` (whether or not such a tab exists), clear
      every button and set those naming `t`, hide every panel and show the
      panel with id `"panel-" + t` if there is one. The buttons and panels
      themselves are not changed. */
  method SwitchTab(v: TabState, t: string) returns (w: TabState)
    requires WellFormed(v)
    ensures Shows(w, t)
    ensures w.buttons == v.buttons && w.panels == v.panels
  {
    var active := v.active;
    var i := 0;
    while i < |v.buttons|
      invariant 0 <= i <= |v.buttons| && |active| == |v.buttons|
      invariant forall j :: 0 <= j < i ==> (active[j] <==> v.buttons[j] == t)
    {
      active := active[i := false];
      if v.buttons[i] == t {
        active := active[i := true];
      }
      i := i + 1;
    }
    var visible := v.visible;
    i := 0;
    while i < |v.panels|
      invariant 0 <= i <= |v.panels| && |visible| == |v.panels|
      invariant forall j :: 0 <= j < i ==> !visible[j]
    {
      visible := visible[i := false];
      i := i + 1;
    }
    var target := FirstIndex(v.panels, PanelId(t));
    if target.Some? {
      visible := visible[target.value := true];
    }
    w := TabState(t, v.buttons, active, v.panels, visible);
  }

  /** The tab strip is determined by the tab shown and the buttons and panels
      present. Since `SwitchTab` keeps the buttons and panels and always ends
      in `Shows(w, t)`, a second `switchTab(t)` returns exactly the state the
      first one produced. */
  lemma SwitchTabIdempotent(w1: TabState, w2: TabState, t: string)
    requires Shows(w1, t) && Shows(w2, t)
    requires w1.buttons == w2.buttons && w1.panels == w2.panels
    ensures w1 == w2
  {
    assert w1.active == w2.active by {
      forall i | 0 <= i < |w1.active| ensures w1.active[i] == w2.active[i] {
        assert w1.active[i] <==> w1.buttons[i] == t;
      }
    }
    assert w1.visible == w2.visible by {
      forall i | 0 <= i < |w1.visible| ensures w1.visible[i] == w2.visible[i] {
        assert w1.visible[i] <==> FirstIndex(w1.panels, PanelId(t)) == Some(i);
      }
    }
  }

  /** After `switchTab(t)` at most one panel is visible; none is when no panel
      has id `"panel-" + t`, and the first panel with that id is otherwise. */
  lemma VisiblePanels(w: TabState, t: string)
    requires Shows(w, t)
    ensures forall i, j :: 0 <= i < |w.panels| && 0 <= j < |w.panels| && w.visible[i] && w.visible[j] ==> i == j
    ensures PanelId(t) !in w.panels ==> forall i :: 0 <= i < |w.panels| ==> !w.visible[i]
    ensures PanelId(t) in w.panels ==>
              exists i :: 0 <= i < |w.panels| && w.visible[i] && w.panels[i] == PanelId(t)
  {
    var target := FirstIndex(w.panels, PanelId(t));
    if target.Some? {
      assert w.visible[target.value];
    }
  }
}

=== FILE: text.dfy ===
/** String operations behind `getInitials`: `split(' ')`, `join`, an ASCII
    `toUpperCase` and `slice(0, n)`. */
module Text {

  function Min(a: nat, b: nat): nat {
    if a <= b then a else b
  }

  /** The words of `ws` joined with single spaces (`ws.join(' ')`). */
  function Join(ws: seq<string>): string
    requires |ws| >= 1
  {
    if |ws| == 1 then ws[0] else ws[0] + " " + Join(ws[1..])
  }

  /** `s.split(' ')`: the maximal space-free pieces between single spaces, so
      consecutive, leading or trailing spaces give empty pieces. */
  function Split(s: string): (ws: seq<string>)
    ensures |ws| >= 1
    ensures forall i :: 0 <= i < |ws| ==> ' ' !in ws[i]
    ensures Join(ws) == s
  {
    if |s| == 0 then [""]
    else
      var rest := Split(s[1..]);
      if s[0] == ' ' then
        assert ([""] + rest)[1..] == rest;
        [""] + rest
      else
        var ws := [[s[0]] + rest[0]] + rest[1..];
        assert ws[1..] == rest[1..];
        assert s == [s[0]] + s[1..];
        ws
  }

  lemma {:induction false} SplitWordThenSpace(w: string, rest: string)
    requires ' ' !in w
    ensures Split(w + " " + rest) == [w] + Split(rest)
    decreases |w|
  {
    if |w| == 0 {
      assert (w + " " + rest)[1..] == rest;
    } else {
      SplitWordThenSpace(w[1..], rest);
      assert (w + " " + rest)[1..] == w[1..] + " " + rest;
      assert [w[0]] + w[1..] == w;
    }
  }

  lemma {:induction false} SplitWord(w: string)
    requires ' ' !in w
    ensures Split(w) == [w]
    decreases |w|
  {
    if |w| > 0 {
      SplitWord(w[1..]);
      assert [w[0]] + w[1..] == w;
    }
  }

  /** `split` undoes `join` on space-free words: with `Split`'s own
      `Join(Split(s)) == s`, the two are inverse bijections. */
  lemma {:induction false} SplitJoin(ws: seq<string>)
    requires |ws| >= 1
    requires forall i :: 0 <= i < |ws| ==> ' ' !in ws[i]
    ensures Split(Join(ws)) == ws
    decreases |ws|
  {
    if |ws| == 1 {
      SplitWord(ws[0]);
    } else {
      SplitJoin(ws[1..]);
      SplitWordThenSpace(ws[0], Join(ws[1..]));
      assert [ws[0]] + ws[1..] == ws;
    }
  }

  /** `words.map(w => w[0]).join('')`: the first character of every word; an
      empty word gives `undefined`, which `join` writes as nothing. */
  function FirstChars(ws: seq<string>): string {
    if |ws| == 0 then "" else (if ws[0] == "" then "" else [ws[0][0]]) + FirstChars(ws[1..])
  }

  /** A left-to-right scan of `s` that keeps every non-space character standing
      at the start of `s` or right after a space (`afterSpace` tells whether the
      scan is at such a place). */
  function WordStarts(s: string, afterSpace: bool): string {
    if |s| == 0 then ""
    else if s[0] == ' ' then WordStarts(s[1..], true)
    else (if afterSpace then [s[0]] else "") + WordStarts(s[1..], false)
  }

  /** The first characters of the pieces of `split(' ')` are exactly the
      characters that begin a word; the pieces after the first one begin the
      words that follow a space. */
  lemma {:induction false} FirstCharsOfSplit(s: string)
    ensures FirstChars(Split(s)) == WordStarts(s, true)
    ensures FirstChars(Split(s)[1..]) == WordStarts(s, false)
    decreases |s|
  {
    if |s| > 0 {
      FirstCharsOfSplit(s[1..]);
      var rest := Split(s[1..]);
      if s[0] == ' ' {
        assert Split(s) == [""] + rest;
        assert Split(s)[1..] == rest;
      } else {
        var w := [s[0]] + rest[0];
        assert Split(s) == [w] + rest[1..];
        assert Split(s)[1..] == rest[1..];
        assert FirstChars(rest) == (if rest[0] == "" then "" else [rest[0][0]]) + FirstChars(rest[1..]);
      }
    }
  }

  /** A string of spaces begins no word. */
  lemma {:induction false} WordStartsOfSpaces(s: string, afterSpace: bool)
    requires forall i :: 0 <= i < |s| ==> s[i] == ' '
    ensures WordStarts(s, afterSpace) == ""
    decreases |s|
  {
    if |s| > 0 {
      WordStartsOfSpaces(s[1..], true);
    }
  }

  /** `toUpperCase` restricted to ASCII letters. */
  function UpperAscii(c: char): (u: char)
    ensures 'a' <= c <= 'z' ==> 'A' <= u <= 'Z' && u as int == c as int - 32
    ensures !('a' <= c <= 'z') ==> u == c
  {
    if 'a' <= c <= 'z' then (c as int - 32) as char else c
  }

  function UpperString(s: string): (r: string)
    ensures |r| == |s|
    ensures forall i :: 0 <= i < |s| ==> r[i] == UpperAscii(s[i])
  {
    seq(|s|, i requires 0 <= i < |s| => UpperAscii(s[i]))
  }

  /** `s.slice(0, n)`. */
  function Take(s: string, n: nat): (r: string)
    ensures r <= s && |r| == Min(n, |s|)
  {
    if |s| <= n then s else s[..n]
  }
}

=== FILE: wrappers.dfy ===
/** A value that may be missing. The page does not tell JavaScript's
    `undefined` from `null`, so both are `None` here; `Some` carries a value
    that is present, whether or not it is truthy. */
module Wrappers {

  datatype Option<+T> = None | Some(value: T) {

    /** The carried value, or `fallback` when there is none. */
    function GetOr(fallback: T): T {
      match this
      case Some(v) => v
      case None => fallback
    }
  }
}
